=== FILE: README.md ===
# Pinia-style store registry in Dafny

A model of the engine of a small re-implementation of Pinia, the Vue state
library: `defineStore` and the accessor it returns, the construction of setup
stores and option stores, the registry made by `createPinia`, the subscription
list of `sub.js`, and `storeToRefs`. Vue's reactivity is not modelled. Its
primitives are tags on an abstract `Value`:

- `Ref`, with a source: a cell, a field of a state object or a store field;
- `Computed`, with a derivation: author code or an option store's getter;
- `Reactive`, `Fn`, and plain values.

The registry in scope when an accessor runs is an explicit `Option<Pinia>`
parameter. This replaces `getCurrentInstance()` and `inject`.

Modules, one per part of the engine:

- `Wrappers` (`wrappers.dfy`): `Option`, `Result`.
- `Values` (`values.dfy`): tagged values, functions, receivers, stores, call records, faults.
- `Registry` (`registry.dfy`): the `createPinia` record, `use`, and a `World` of registries for stating independence.
- `StoreEngine` (`store.dfy`): `defineStore`, `useStore`, `createSetupStore`, `wrapAction`, `createOptionStore`.
- `Projector` (`projector.dfy`): `storeToRefs` and what reading a ref yields.
- `Subscriptions` (`subscriptions.dfy`): `addSubscription`, its remover, `triggerSubscription`.
- `Counter` (`counter.dfy`): the example counter store, in both styles, as a concrete instance.

Modelling choices:

- A store object's identity is the registry that holds it plus its id. `Store.id` exists for this and is not a JavaScript field.
- A wrapped action passes its own store, `StoreThis(id)`, as the receiver. An ordinary function's body sees that receiver as `this`. An arrow function ignores the receiver passed and sees the `this` of the code it was written in, which is `undefined` in a setup function. A getter finds its store in the registry when it is read, so it receives `undefined` if the store is not registered yet.
- A setup function is represented by the object it returns.
- An author-written function is an opaque name, tagged as ordinary or arrow. What it returns is given by a `run: Call -> Value` parameter. The model records each call as a `Call`: callee, the `this` its body sees, and arguments.
- An id may be `undefined`. This happens when the options object has no `id`. The store map then uses `undefined` as its key. The state tree object uses the key `"undefined"`, because object property keys are strings.
- State objects have identity. Each registry numbers the state objects written into it, in order. Its state tree maps a key to the number of the object now stored there. A ref made by `toRefs` names an object by its number, so it keeps reading that object even after another one is stored under its key.
- A remover is applied only to the list its `addSubscription` call appended to. The JavaScript remover closes over that array; `Remover` records only the callback.
- Subscription callbacks are opaque ids. What a callback does to the live list, and whether it throws, is given by a `react` function. A trigger returns the calls it made, the list left behind and the error that stopped it. A reaction depends only on the callback and on the live list at the time of its call. So a callback whose throw depends on the arguments, or on how often it has been called, cannot be expressed. In particular, `ThrowAborts` asks the k-th pending callback to throw when none before it does, which cannot hold when the same callback also appears earlier in the pending list.

Behaviours of the code worth knowing:

- Two definitions with the same id share one store per registry. The first accessor called on a registry builds it, and every later accessor with that id returns that store (`FirstBuiltWins`).
- Option-store state: the code writes `state()` itself, or `{}`, into the state tree. It does so before it checks for `getters`. So a missing `getters` throws after the state tree was already written (`OptionSetup`, `CreateOptionStore`).
- `use` only records plugins. The store code never runs them.
- Setup-store fields are not mirrored into the state tree.
- `wrapAction` has no interception. It calls the action with the store as receiver and returns `undefined`.
- `storeToRefs` keeps refs, computed values and reactive objects. It drops plain values as well as functions. Yet a store built by `createSetupStore` never holds a `reactive(...)` object. `Object.assign` writes through the reactive store, and its setter stores the raw object behind each reactive field (src/pinia/store.js:65). So projecting a built store keeps only its refs and computed values (`SetupStoreProjection`). Shallow and readonly reactive values, which that setter keeps as they are, are outside the value tags.
- An option store without an id and one with the id `"undefined"` share the state-tree key `"undefined"`. The second build replaces the first store's state object in the tree. The first store's state refs still read its own object (`CollidingKeysKeepEarlierState`).
- A remover takes out the first remaining occurrence of its callback. A second call of it is a no-op only when the callback was subscribed once (`RemoveAfterAdd`); for a callback subscribed twice it takes out the second copy (`RemoveTwiceAfterDoubleAdd`).

## Model

| member | source | states |
|---|---|---|
| `StoreEngine.DefineStore` | src/pinia/store.js:4-17 | A string first argument is the id and the second is the options. Otherwise the first is the options and the id is its `id` field. The setup style is chosen exactly when the second argument is a function. An undefined first argument throws. |
| `StoreEngine.UseStore` | src/pinia/store.js:19-38 | Without a registry the call fails with `NoActiveContext`. An id already registered returns that store and leaves the registry unchanged. A missing id builds with `CreateSetupStore` for a setup definition and with `CreateOptionStore` otherwise. On success the registry holds the id, the returned store is its entry, and in a well-formed registry it carries that id. Only the option path can fail. Plugins are never changed. |
| `StoreEngine.DefineThenUse` | src/pinia/store.js:8-32 | When the second argument of `defineStore` is a function, the first accessor call builds the setup store of its result, with the same keys. Otherwise it builds the option store of the options `defineStore` picked. |
| `StoreEngine.UseStoreKeepsWellFormed` | src/pinia/store.js:26-37 | An accessor call keeps every registered store under its own id. |
| `StoreEngine.UseStoreIsSingleton` | src/pinia/store.js:26-37 | A second accessor call on the registry the first one left returns the identical store and changes nothing. |
| `StoreEngine.FirstBuiltWins` | src/pinia/store.js:26-37 | A second definition with the same id gets the store the first one built, unchanged. |
| `StoreEngine.CreateSetupStore` | src/pinia/store.js:45-69 | The store's keys are the setup result's keys. Function fields become wrappers bound to the store. A reactive field is stored as its raw object. Other fields are copied unchanged. The store is registered under `id`; the state tree, the state objects and the plugins are untouched. |
| `StoreEngine.Invoke` | src/pinia/store.js:48-53 | A call, through any depth of wrappers, makes exactly one call of the innermost author-written function, with the caller's arguments. The innermost wrapper's store is the receiver passed to it; an arrow function sees none. A wrapper returns `undefined` whatever the action returns. |
| `StoreEngine.WrapperBindsStore` | src/pinia/store.js:48-53 | A wrapper calls the original action once with the caller's arguments. It passes its own store as the receiver, ignoring the receiver it was given, and drops the result. An ordinary original sees that store as `this`; an arrow original does not. |
| `StoreEngine.SetupStoreActionsAreBound` | src/pinia/store.js:55-66 | Every function field of a new setup store behaves as the original called with the registered store as the receiver passed. Its result is dropped. |
| `StoreEngine.OptionSetup` | src/pinia/store.js:72-93 | `state()`, or `{}` when there is no `state`, becomes a new state object, and the id's key in the state tree names it. The call fails exactly when `getters` is missing, after that write. Otherwise the keys are state ∪ actions ∪ getters. Getters override actions, and actions override state fields. A state field is a ref to that field of the new object. |
| `StoreEngine.OptionStoreIsSetupStore` | src/pinia/store.js:72-96 | With getters, an option store is the setup store of the adapted fields, built on the registry with the written state tree. |
| `StoreEngine.CreateOptionStore` | src/pinia/store.js:72-96 | Undefined options throw before anything is written. Otherwise a new state object is appended and the id's key names it. The store is built and registered exactly when there is an options object with getters. Each state field that no action or getter shadows is then a ref to the new object. A failure leaves the store map unchanged. |
| `StoreEngine.ReadComputed` | src/pinia/store.js:85-89 | Reading a computed value makes exactly one author-written call. |
| `StoreEngine.GettersSeeRegisteredStore` | src/pinia/store.js:85-89 | Each ordinary getter of a new option store is a computed value. Reading it calls the getter with the store now registered under the id as `this`. |
| `StoreEngine.UseStoreIn` | src/pinia/store.js:19-38 | An accessor call changes only the registry in scope. With none in scope it fails with `NoActiveContext`. |
| `StoreEngine.RegistriesBuildIndependently` | src/pinia/store.js:19-38 | Two registries each build their own store from one setup definition, or from one option definition with getters. Building in the first leaves the second empty. An option store's state lands in each registry's own state tree, as that registry's first state object. |
| `Registry.Fresh` | src/pinia/createPinia.js:8-27 | A new registry has an empty state tree, state-object list, plugin list and store map. |
| `Registry.CreatePinia` | src/pinia/createPinia.js:4-29 | `createPinia` adds a fresh, empty registry. Its handle is distinct from every existing registry's, and the existing registries are unchanged. |
| `Registry.Use` | src/pinia/createPinia.js:19-23 | `use` appends the plugin at the end and keeps earlier plugins in order. It leaves the state tree, the state objects and the store map unchanged. |
| `Registry.UseAllAppends` | src/pinia/createPinia.js:19-23 | Chained `use` calls append their plugins in call order and change nothing else. |
| `Registry.UseIn` | src/pinia/createPinia.js:19-23 | `use` on one registry appends to that registry's plugins only. |
| `Registry.TwoRegistriesAreIndependent` | src/pinia/createPinia.js:4-29 | Two `createPinia` calls give distinct registries. Using a plugin on one leaves the other empty. |
| `Subscriptions.AddSubscription` | src/pinia/sub.js:2-13 | Adding appends the callback at the end and keeps all earlier entries in place. The returned remover is for that callback. |
| `Subscriptions.RemoveFirst` | src/pinia/sub.js:7-11 | Removing an absent callback is a no-op. Removing a present one shortens the list by one and takes exactly one occurrence out of the multiset. |
| `Subscriptions.IndexOf` | src/pinia/sub.js:7 | Returns -1 exactly when the callback is absent. Otherwise returns the first index that holds it. |
| `Subscriptions.RunRemover` | src/pinia/sub.js:6-11 | The remover removes the first occurrence of its callback, as `RemoveFirst` defines it. It is a no-op when the callback is absent and otherwise shortens the list by one. |
| `Subscriptions.RemoveFirstAt` | src/pinia/sub.js:7-9 | Removing the first occurrence equals splicing out its index. |
| `Subscriptions.RemoveFirstKeepsOrder` | src/pinia/sub.js:7-9 | Entries before the removed one keep their positions, and entries after it move down by one. |
| `Subscriptions.RemoveAfterAdd` | src/pinia/sub.js:4-11 | After adding a callback not yet subscribed, its remover restores the original list. Calling the remover twice then equals calling it once. |
| `Subscriptions.RemoveTwiceAfterDoubleAdd` | src/pinia/sub.js:4-11 | After the same callback is added twice, the first remover call takes out the first copy and the second call takes out the other. So the second call is not a no-op. |
| `Subscriptions.Notify` | src/pinia/sub.js:17 | The calls made are a prefix of the pending callbacks in order, each with the same arguments. All of them are made unless one throws. Callbacks that never throw never abort. Callbacks that leave the list alone leave it unchanged. |
| `Subscriptions.TriggerSubscription` | src/pinia/sub.js:16-18 | A trigger calls every callback of the list as it was when the trigger started, in order, with the same arguments. A throw cuts the calls short. The trigger itself leaves the list unchanged. |
| `Subscriptions.SnapshotFixesCalls` | src/pinia/sub.js:17 | Callbacks that add or remove subscriptions while a trigger runs do not change which callbacks that trigger calls. |
| `Subscriptions.ThrowAborts` | src/pinia/sub.js:17 | When the k-th callback throws and none before it does, exactly the first k+1 callbacks are called and the error propagates. |
| `Subscriptions.AddedIsNotifiedLast` | src/pinia/sub.js:2-18 | A callback added last is called last, after all earlier subscribers. |
| `Projector.StoreToRefs` | src/pinia/index.js:5-20 | The result's keys are exactly the store keys whose value is a ref, a computed value or a reactive object. Functions and plain values are dropped, and every entry is a ref. |
| `Registry.WriteState` | src/pinia/store.js:78 | Writing appends the object as a new state object and points the key at it. Earlier objects, the other keys, the plugins and the stores are unchanged. |
| `Projector.ProjectedRefIsField` | src/pinia/index.js:14-15 | A field that already is a ref is kept, as that same ref. |
| `Projector.StateRefsSurviveRewrite` | src/pinia/store.js:78-80 | A state ref keeps reading the object it was made from after another object is written under any key, its own key included. |
| `Projector.OptionStateRef` | src/pinia/store.js:78-83 | A state field of a new option store, shadowed by no action or getter, is a ref to the appended state object, which holds the initial state. |
| `Projector.LaterBuildKeepsEarlier` | src/pinia/store.js:72-96 | Building an option store under another id leaves an existing store and every existing state object unchanged. |
| `Projector.CollidingKeysKeepEarlierState` | src/pinia/store.js:78-80 | Of two option stores with different ids, the first one's state fields keep reading its own initial state. This holds even when both ids share a property key and the second build points that key at its own object. |
| `Projector.ProjectionIsLive` | src/pinia/index.js:15 | In any later state of the registry that built the store, as long as the store still holds the same refs, each projected entry reads what the store's field reads there. The store's other fields and the contents of the state objects may have changed. No new projection is needed. |
| `Projector.SetupStoreProjection` | src/pinia/index.js:11-17 | Projecting a new setup store keeps exactly the setup result's refs and computed values. Wrapped actions are dropped, and so are reactive objects, which the store holds raw. |
| `Projector.OptionFieldKinds` | src/pinia/store.js:78-92 | The adapted fields have the keys state ∪ actions ∪ getters. Each getter is a computed value that reads that getter against the store with this id, actions not overridden by getters are copied as given, and state fields overridden by neither are refs. |
| `Projector.OptionStoreProjection` | src/pinia/index.js:11-17 | A key is in the projection of a new option store exactly when it is a getter, or a state field no action shadows, or an action no getter shadows whose value is a ref or computed value. Function actions and reactive objects are dropped. |
| `Counter.SetupCounter` | src/stores/counter.js:21-38 | The setup-style counter gets id "counter" and a wrapped `increment`, and keeps `count`. Its projection has exactly `count` and `double`. `increment` is an arrow function, so a call through the wrapper does not see the store as `this`. |
| `Counter.OptionCounter` | src/stores/counter.js:4-19 | The option-style counter writes `{count: 0}` as the registry's first state object, under "counter". After that object's `count` becomes 5, the projected `count` reads 5. |

## Left out

- `install` (src/pinia/createPinia.js:13-18): wiring into the host framework (`globalProperties`, `provide`). The registry in scope is a parameter instead. This also replaces the `./rootStore` injection key, which is not part of this model.
- Vue reactivity (`reactive`, `ref`, `computed`, `toRefs`, `toRaw`, `toRef`, `getCurrentInstance`, `inject`) is foreign library code. Its values are tags. Dependency tracking, lazy recomputation and writes into a `ref(...)` cell made by setup code are not modelled: such a cell always reads its initial content.
- Plugin execution, `$patch`, `$subscribe`, `$onAction`, `$state`, `$reset` and action after/error hooks are absent from the store code modelled here. `sub.js` is not used by `store.js`.
- The persistence plugin of `src/main.js` is `localStorage` and JSON I/O.
- Author code that throws is not modelled. This covers a setup function, a `state()` or an action. The code catches none of these, so such a throw would reach the accessor's or the wrapper's caller.
- Options whose `state` is not a function, or whose getters are not functions, are outside the model. These would throw at `state()` or at getter evaluation. A missing `state` and a missing `getters` are modelled.
- The order of `for ... in` keys and inherited enumerable properties is not modelled. Objects are maps.
- Asynchronous actions: the code treats an action's promise like any other result and drops it.
- `StoreEngine.ReadComputed`: its own contract states only that one call is made. The receiver is stated by `StoreEngine.GettersSeeRegisteredStore`.
- A setup function is assumed to return a fresh object on each call. `createSetupStore` writes the wrappers into that object in place (src/pinia/store.js:61). So a setup that returns one shared object would, in a second registry, wrap the first registry's wrappers, and its actions would then receive the first registry's store. `SetupStoreActionsAreBound` and `RegistriesBuildIndependently` hold only for fresh results.
- `state()` is assumed to return a fresh object on each call. src/pinia/store.js:78 stores whatever it returns. So a `state` that returns one shared object would put that same object into two registries' state trees, and a write through one store would show in the other. `RegistriesBuildIndependently` and `OptionCounter` hold only for fresh results.
- Refs stored inside a state object are outside the model. `toRefs` over the reactive state (src/pinia/store.js:80) unwraps such a ref when it is read, but `RefValue` returns the inner ref as it is.

=== FILE: counter.dfy ===
/**
 * The example counter store, written both ways: as a setup store (the live
 * definition) and as an option store (the commented-out one), used as concrete
 * instances of the engine's guarantees.
 */
module Counter {
  import opened Wrappers
  import opened Values
  import opened Registry
  import opened StoreEngine
  import opened Projector

  /** What the counter's setup function returns: `count`, `double` and `increment`. */
  const CounterSetup: map<string, Value> :=
    map["count" := Ref(Cell(Num(0))),
        "double" := Computed(UserDerived("double")),
        "increment" := Fn(Arrow("increment"))]

  /** The options object of the option-style counter. */
  const CounterOptions: Options :=
    Options(None, Some(map["count" := Num(0)]),
            Some(map["increment" := Fn(User("increment"))]),
            Some(map["double" := User("double")]))

  /** The setup-style counter used from a fresh registry: `increment` is wrapped, the
      other fields are kept, and projecting it keeps `count` and `double`. Being an arrow
      function, `increment` does not see the store as `this` even through its wrapper. */
  lemma SetupCounter(self: Receiver, args: seq<Value>, run: Call -> Value)
    ensures var d := DefineStore(Text("counter"), Setup(CounterSetup));
            && d.Success? && d.value.id == Some("counter")
            && var a := UseStore(d.value, Some(Fresh()));
               && a.store.Success?
               && a.store.value.fields["count"] == Ref(Cell(Num(0)))
               && a.store.value.fields["increment"] == Fn(Wrapped(Arrow("increment"), Some("counter")))
               && Invoke(a.store.value.fields["increment"].f, self, args, run)
                  == ([Call("increment", Unbound, args)], Undefined)
               && StoreToRefs(a.store.value).Keys == {"count", "double"}
  {
    var d := DefineStore(Text("counter"), Setup(CounterSetup));
    var a := UseStore(d.value, Some(Fresh()));
    var s := a.store.value;
    assert s.fields.Keys == {"count", "double", "increment"};
    var refs := StoreToRefs(s);
    assert "increment" !in refs by { assert s.fields["increment"].Fn?; }
    assert "count" in refs && "double" in refs;
  }

  /** The option-style counter: its state becomes the registry's first state object,
      stored under "counter", and after that object's `count` changes to 5 the
      projected `count` reads 5. */
  lemma OptionCounter(run: Call -> Value)
    ensures var d := DefineStore(Text("counter"), Config(CounterOptions));
            && d.Success?
            && var a := UseStore(d.value, Some(Fresh()));
               && a.store.Success?
               && a.registry.value.state == map["counter" := 0]
               && a.registry.value.objects == [map["count" := Num(0)]]
               && "count" in StoreToRefs(a.store.value)
               && var later := a.registry.value.(objects := [map["count" := Num(5)]]);
                  RefValue(later, StoreToRefs(a.store.value)["count"], run) == Num(5)
  {
    var d := DefineStore(Text("counter"), Config(CounterOptions));
    var a := UseStore(d.value, Some(Fresh()));
    OptionStateRef(Some("counter"), CounterOptions, Fresh(), "count");
    var s := a.store.value;
    ProjectedRefIsField(s, "count");
  }
}

=== FILE: projector.dfy ===
/**
 * `storeToRefs`: keep the store's refs (computed values included) and reactive
 * objects, each as a live binding to the store's field of the same key; drop
 * actions and plain values. As the host library's `toRef(object, key)` does, a
 * field that already is a ref is returned as that same ref, and any other kept
 * field becomes a binding that reads `store[key]`. A store built by
 * `createSetupStore` holds no reactive fields (it stores their raw objects), so
 * projecting it keeps its refs and computed values only.
 */
module Projector {
  import opened Wrappers
  import opened Values
  import opened Registry
  import opened StoreEngine

  /** The fields `storeToRefs` keeps. */
  predicate Observable(v: Value) {
    IsRef(v) || IsReactive(v)
  }

  /** `toRef(store, key)`. */
  function ToRef(s: Store, key: string): Value
    requires key in s.fields
  {
    if IsRef(s.fields[key]) then s.fields[key] else Ref(StoreField(s.id, key))
  }

  /** `storeToRefs(store)`. */
  function StoreToRefs(s: Store): (r: map<string, Value>)
    ensures r.Keys <= s.fields.Keys
    ensures forall k :: k in s.fields ==> (k in r <==> Observable(s.fields[k]))
    ensures forall k :: k in r ==> IsRef(r[k])
  {
    map k | k in s.fields && Observable(s.fields[k]) :: ToRef(s, k)
  }

  /** A field that already is a ref is projected as that same ref. */
  lemma ProjectedRefIsField(s: Store, k: string)
    requires k in s.fields && IsRef(s.fields[k])
    ensures k in StoreToRefs(s) && StoreToRefs(s)[k] == s.fields[k]
  {
  }

  /** `ref.value` of a ref in registry `p`; `run` gives author-written functions' results. */
  function RefValue(p: Pinia, v: Value, run: Call -> Value): Value {
    match v
    case Ref(Cell(content)) => content
    case Ref(StateField(obj, field)) =>
      if obj < |p.objects| && field in p.objects[obj] then p.objects[obj][field] else Undefined
    case Ref(StoreField(owner, field)) =>
      if owner in p.stores && field in p.stores[owner].fields then p.stores[owner].fields[field] else Undefined
    case Computed(d) => ReadComputed(p, d, run).1
    case _ => Undefined
  }

  /** Reading `store[key]` through the reactive store, which unwraps refs. */
  function Get(p: Pinia, id: StoreId, key: string, run: Call -> Value): Value {
    if id in p.stores && key in p.stores[id].fields then
      var v := p.stores[id].fields[key];
      if IsRef(v) then RefValue(p, v, run) else v
    else Undefined
  }

  /** The store registered under `s.id` in `p` is a later version of `s`: refs are never
      swapped for other refs (writes go into them), and no other field became a ref. */
  ghost predicate LaterVersion(s: Store, p: Pinia) {
    && s.id in p.stores
    && (forall k :: k in s.fields && IsRef(s.fields[k]) ==>
          k in p.stores[s.id].fields && p.stores[s.id].fields[k] == s.fields[k])
    && (forall k :: k in s.fields && !IsRef(s.fields[k]) && k in p.stores[s.id].fields ==>
          !IsRef(p.stores[s.id].fields[k]))
  }

  /** Liveness: in any later state of the registry that built `s`, as long as its store
      still holds the same refs (whatever the state objects and the other field values
      have become), each projected binding reads what the store's field reads there,
      without projecting again. */
  lemma ProjectionIsLive(s: Store, p: Pinia, run: Call -> Value)
    requires LaterVersion(s, p)
    ensures forall k :: k in StoreToRefs(s) ==>
              RefValue(p, StoreToRefs(s)[k], run) == Get(p, s.id, k, run)
  {
    var r := StoreToRefs(s);
    forall k | k in r
      ensures RefValue(p, r[k], run) == Get(p, s.id, k, run)
    {
      if IsRef(s.fields[k]) {
        assert p.stores[s.id].fields[k] == s.fields[k];
      } else {
        assert r[k] == Ref(StoreField(s.id, k));
      }
    }
  }

  /** Projecting a freshly built setup store keeps exactly the setup result's refs and
      computed values: the wrapped actions are dropped, and so are reactive objects,
      which the store holds raw. */
  lemma SetupStoreProjection(id: StoreId, setupStore: map<string, Value>, p: Pinia)
    ensures var (_, s) := CreateSetupStore(id, setupStore, p);
            forall k :: k in StoreToRefs(s) <==> k in setupStore && IsRef(setupStore[k])
  {
    var (_, s) := CreateSetupStore(id, setupStore, p);
    forall k ensures k in StoreToRefs(s) <==> k in setupStore && IsRef(setupStore[k]) {
      if k in setupStore && IsFunction(setupStore[k]) {
        assert s.fields[k].Fn?;
      } else if k in setupStore && IsReactive(setupStore[k]) {
        assert s.fields[k].Obj?;
      }
    }
  }

  /** The kinds of the fields an option store's adapted setup returns: getters are
      computed values, actions no getter shadows are copied, and state fields neither
      shadows are refs. */
  lemma OptionFieldKinds(id: StoreId, obj: nat, init: map<string, Value>, actions: map<string, Value>,
                         getters: map<string, Func>)
    ensures var fields := OptionFields(id, obj, init, actions, getters);
            && fields.Keys == init.Keys + actions.Keys + getters.Keys
            && (forall k :: k in getters ==> fields[k] == Computed(StoreGetter(getters[k], id)))
            && (forall k :: k in actions && k !in getters ==> fields[k] == actions[k])
            && (forall k :: k in init && k !in actions && k !in getters ==> IsRef(fields[k]))
  {
  }

  /** Projecting a freshly built option store keeps exactly its getters, its state fields
      no action shadows, and the actions no getter shadows that are refs or computed
      values; function actions and reactive objects are dropped. */
  lemma OptionStoreProjection(id: StoreId, o: Options, p: Pinia, s: Store)
    requires o.getters.Some?
    requires CreateOptionStore(id, Config(o), p).store == Success(s)
    ensures var init := if o.state.Some? then o.state.value else map[];
            var actions := if o.actions.Some? then o.actions.value else map[];
            forall k :: k in StoreToRefs(s) <==>
              || k in o.getters.value
              || (k in actions && k !in o.getters.value && IsRef(actions[k]))
              || (k in init && k !in actions)
  {
    var init := if o.state.Some? then o.state.value else map[];
    var actions := if o.actions.Some? then o.actions.value else map[];
    var p' := WriteState(p, PropertyKey(id), init);
    var setupStore := OptionFields(id, |p.objects|, init, actions, o.getters.value);
    OptionStoreIsSetupStore(id, o, p);
    SetupStoreProjection(id, setupStore, p');
    OptionFieldKinds(id, |p.objects|, init, actions, o.getters.value);
  }

  /** A state ref is bound to the object it was made from: writing another object under
      any key of the state tree, its own key included, leaves what it reads unchanged. */
  lemma StateRefsSurviveRewrite(p: Pinia, key: string, written: map<string, Value>,
                                obj: nat, field: string, run: Call -> Value)
    requires obj < |p.objects|
    ensures RefValue(WriteState(p, key, written), Ref(StateField(obj, field)), run)
         == RefValue(p, Ref(StateField(obj, field)), run)
  {
    var q := WriteState(p, key, written);
    assert q.objects[obj] == q.objects[..|p.objects|][obj];
  }

  /** A state field of a freshly built option store reads the state object the build
      appended, which holds the initial state. */
  lemma OptionStateRef(id: StoreId, o: Options, p: Pinia, k: string)
    requires o.getters.Some? && o.state.Some? && k in o.state.value
    requires (o.actions.None? || k !in o.actions.value) && k !in o.getters.value
    ensures var a := CreateOptionStore(id, Config(o), p);
            && a.store.Success? && k in a.store.value.fields
            && a.store.value.fields[k] == Ref(StateField(|p.objects|, k))
            && |p.objects| < |a.registry.value.objects|
            && a.registry.value.objects[|p.objects|] == o.state.value
  {
  }

  /** Building an option store under another id leaves an existing store and every
      existing state object as they were. */
  lemma LaterBuildKeepsEarlier(id: StoreId, o: Options, q: Pinia, other: StoreId, n: nat)
    requires other in q.stores && other != id && n < |q.objects|
    ensures var a := CreateOptionStore(id, Config(o), q);
            && other in a.registry.value.stores && a.registry.value.stores[other] == q.stores[other]
            && n < |a.registry.value.objects| && a.registry.value.objects[n] == q.objects[n]
  {
    var a := CreateOptionStore(id, Config(o), q);
    assert a.registry.value.objects[..|q.objects|] == q.objects;
  }

  /** Reading a store field that is a state ref reads that field of the state object. */
  lemma GetStateField(q: Pinia, id: StoreId, k: string, n: nat, run: Call -> Value)
    requires id in q.stores && k in q.stores[id].fields
    requires q.stores[id].fields[k] == Ref(StateField(n, k))
    requires n < |q.objects| && k in q.objects[n]
    ensures Get(q, id, k, run) == q.objects[n][k]
  {
  }

  /** Two option stores with different ids built one after the other: the first store's
      state fields keep reading its own state object, even when both ids have the same
      property key (no id and the id "undefined") and the second object replaces the
      first under that key in the state tree. */
  lemma CollidingKeysKeepEarlierState(id1: StoreId, o1: Options, id2: StoreId, o2: Options,
                                      p: Pinia, k: string, run: Call -> Value)
    requires o1.getters.Some? && o2.getters.Some? && id1 != id2
    requires o1.state.Some? && k in o1.state.value
    requires o1.actions.None? || k !in o1.actions.value
    requires k !in o1.getters.value
    ensures var a1 := CreateOptionStore(id1, Config(o1), p);
            var a2 := CreateOptionStore(id2, Config(o2), a1.registry.value);
            && (PropertyKey(id1) == PropertyKey(id2) ==> a2.registry.value.state[PropertyKey(id1)] == |p.objects| + 1)
            && Get(a2.registry.value, id1, k, run) == o1.state.value[k]
  {
    var a1 := CreateOptionStore(id1, Config(o1), p);
    OptionStateRef(id1, o1, p, k);
    LaterBuildKeepsEarlier(id2, o2, a1.registry.value, id1, |p.objects|);
    var q2 := CreateOptionStore(id2, Config(o2), a1.registry.value).registry.value;
    GetStateField(q2, id1, k, |p.objects|, run);
  }
}

=== FILE: registry.dfy ===
/**
 * The registry `createPinia` returns: the state tree (`state.value`, id key to
 * state object), the plugin list `_p` and the store map `_s`. State objects have
 * identity: they are numbered in the order they were written, the tree maps a key
 * to the number of the object now stored there, and a ref made from an object keeps
 * reading that object even after another one is stored under its key. `install` (the
 * host-framework wiring) is not modelled. A `World` holds every registry
 * created so far, so that independence of two registries can be stated.
 */
module Registry {
  import opened Values

  /** A plugin; plugins are only recorded here, never run. */
  datatype Plugin = Plugin(name: string)

  datatype Pinia = Pinia(state: map<string, nat>,
                         objects: seq<map<string, Value>>,
                         plugins: seq<Plugin>,
                         stores: map<StoreId, Store>)

  /** Every registered store sits under its own id. */
  ghost predicate WellFormed(p: Pinia) {
    forall id :: id in p.stores ==> p.stores[id].id == id
  }

  /** The registry a `createPinia()` call builds. */
  function Fresh(): (p: Pinia)
    ensures p.state == map[] && p.objects == [] && p.plugins == [] && p.stores == map[]
  {
    Pinia(map[], [], [], map[])
  }

  /** `state.value[key] = obj`: store a new state object under `key`. Objects written
      earlier, including one that was under `key`, stay as they were. */
  function WriteState(p: Pinia, key: string, obj: map<string, Value>): (r: Pinia)
    ensures |r.objects| == |p.objects| + 1 && r.objects[..|p.objects|] == p.objects
    ensures key in r.state && r.state[key] == |p.objects| && r.objects[r.state[key]] == obj
    ensures r.state.Keys == p.state.Keys + {key}
    ensures forall k :: k in p.state && k != key ==> r.state[k] == p.state[k]
    ensures r.plugins == p.plugins && r.stores == p.stores
  {
    p.(objects := p.objects + [obj], state := p.state[key := |p.objects|])
  }

  /** `use(plugin)`: append the plugin and return the registry itself for chaining. */
  function Use(p: Pinia, plugin: Plugin): (r: Pinia)
    ensures |r.plugins| == |p.plugins| + 1
    ensures r.plugins[..|p.plugins|] == p.plugins && r.plugins[|p.plugins|] == plugin
    ensures r.state == p.state && r.objects == p.objects && r.stores == p.stores
  {
    p.(plugins := p.plugins + [plugin])
  }

  /** A chain `p.use(ps[0]).use(ps[1])...`. */
  function UseAll(p: Pinia, ps: seq<Plugin>): Pinia
    decreases |ps|
  {
    if ps == [] then p else UseAll(Use(p, ps[0]), ps[1..])
  }

  /** A chain of `use` calls appends the plugins in call order and touches nothing else. */
  lemma {:induction false} UseAllAppends(p: Pinia, ps: seq<Plugin>)
    ensures UseAll(p, ps).plugins == p.plugins + ps
    ensures UseAll(p, ps).state == p.state && UseAll(p, ps).objects == p.objects
    ensures UseAll(p, ps).stores == p.stores
    decreases |ps|
  {
    if ps != [] {
      UseAllAppends(Use(p, ps[0]), ps[1..]);
      assert p.plugins + [ps[0]] + ps[1..] == p.plugins + ps;
    }
  }

  /** All registries created so far; a registry is named by its position. */
  datatype World = World(registries: seq<Pinia>)

  /** `createPinia()`: a new, empty registry distinct from every existing one. */
  function CreatePinia(w: World): (r: (World, nat))
    ensures r.1 == |w.registries| && |r.0.registries| == |w.registries| + 1
    ensures forall o :: 0 <= o < r.1 ==> r.0.registries[o] == w.registries[o]
    ensures r.0.registries[r.1] == Fresh()
  {
    (World(w.registries + [Fresh()]), |w.registries|)
  }

  /** Replace the registry at `h`, as a mutation of that one object. */
  function Update(w: World, h: nat, p: Pinia): (r: World)
    requires h < |w.registries|
    ensures |r.registries| == |w.registries| && r.registries[h] == p
    ensures forall o :: 0 <= o < |w.registries| && o != h ==> r.registries[o] == w.registries[o]
  {
    World(w.registries[h := p])
  }

  /** `use` called on the registry at `h`. */
  function UseIn(w: World, h: nat, plugin: Plugin): (r: World)
    requires h < |w.registries|
    ensures |r.registries| == |w.registries|
    ensures r.registries[h].plugins == w.registries[h].plugins + [plugin]
    ensures forall o :: 0 <= o < |w.registries| && o != h ==> r.registries[o] == w.registries[o]
  {
    Update(w, h, Use(w.registries[h], plugin))
  }

  /** Two `createPinia()` calls give two distinct registries, and using a plugin on
      one leaves the other as it was. */
  lemma TwoRegistriesAreIndependent(w: World, plugin: Plugin)
    ensures var (w1, h1) := CreatePinia(w);
            var (w2, h2) := CreatePinia(w1);
            && h1 != h2
            && UseIn(w2, h1, plugin).registries[h2] == Fresh()
            && UseIn(w2, h1, plugin).registries[h1].plugins == [plugin]
  {
    var (w1, h1) := CreatePinia(w);
    var (w2, h2) := CreatePinia(w1);
    assert w2.registries[h1] == w1.registries[h1];
  }
}

=== FILE: store.dfy ===
/**
 * Store definition and construction: `defineStore` and the accessor it
 * returns, `createSetupStore` with its action wrapper, and the adapter
 * `createOptionStore` builds to turn an options object into a setup function.
 * A setup function is represented by the object it returns; the registry in
 * scope when an accessor runs is passed in explicitly.
 */
module StoreEngine {
  import opened Wrappers
  import opened Values
  import opened Registry

  /** An options object. `state` is `Some(o)` when it is a function returning `o`. */
  datatype Options = Options(id: StoreId,
                             state: Option<map<string, Value>>,
                             actions: Option<map<string, Value>>,
                             getters: Option<map<string, Func>>)

  /** An argument of `defineStore`. */
  datatype Arg =
    | Absent                          // undefined
    | Text(s: string)                 // a string
    | Setup(result: map<string, Value>)  // a function; calling it returns `result`
    | Config(options: Options)        // an options object

  /** How the accessor builds the store, decided once when the store is defined. */
  datatype Style = SetupStyle(setup: map<string, Value>) | OptionStyle(options: Arg)

  /** What the accessor closure captures. */
  datatype Definition = Definition(id: StoreId, style: Style)

  /** The result of an accessor call: the registry in scope afterwards, and the store or a fault. */
  datatype Access = Access(registry: Option<Pinia>, store: Result<Store, Fault>)

  /** `defineStore(idOrOptions, setup)`. */
  function DefineStore(idOrOptions: Arg, setup: Arg): (r: Result<Definition, Fault>)
    ensures idOrOptions.Absent? <==> r == Failure(UndefinedDefinition)
    ensures r.Success? && idOrOptions.Text? ==> r.value.id == Some(idOrOptions.s)
    ensures r.Success? && idOrOptions.Config? ==> r.value.id == idOrOptions.options.id
    ensures r.Success? && idOrOptions.Setup? ==> r.value.id == None
    ensures r.Success? ==> (r.value.style.SetupStyle? <==> setup.Setup?)
    ensures r.Success? && setup.Setup? ==> r.value.style.setup == setup.result
    ensures r.Success? && !setup.Setup? ==>
              r.value.style.options == (if idOrOptions.Text? then setup else idOrOptions)
  {
    var isSetupStore := setup.Setup?;
    if idOrOptions.Absent? then Failure(UndefinedDefinition)
    else
      var (id, options) :=
        match idOrOptions
        case Text(s) => (Some(s), setup)
        case Config(o) => (o.id, idOrOptions)
        case _ => (None, idOrOptions);
      Success(Definition(id, if isSetupStore then SetupStyle(setup.result) else OptionStyle(options)))
  }

  /** A field as `createSetupStore` stores it. Functions become wrappers bound to the
      store. `Object.assign` writes through the reactive store, whose setter stores the
      raw object behind a reactive one; refs and all other values are stored as given. */
  function Bind(v: Value, id: StoreId): Value {
    match v
    case Fn(f) => Fn(Wrapped(f, id))
    case Reactive(handle) => Obj(handle)
    case _ => v
  }

  /** `createSetupStore(id, setup, pinia)` given the object `setup()` returned. */
  function CreateSetupStore(id: StoreId, setupStore: map<string, Value>, p: Pinia): (r: (Pinia, Store))
    ensures r.1.id == id
    ensures r.1.fields.Keys == setupStore.Keys
    ensures forall k :: k in setupStore && IsFunction(setupStore[k]) ==>
              r.1.fields[k] == Fn(Wrapped(setupStore[k].f, id))
    ensures forall k :: k in setupStore && IsReactive(setupStore[k]) ==>
              r.1.fields[k] == Obj(setupStore[k].handle)
    ensures forall k :: k in setupStore && !IsFunction(setupStore[k]) && !IsReactive(setupStore[k]) ==>
              r.1.fields[k] == setupStore[k]
    ensures r.0.stores == p.stores[id := r.1]
    ensures r.0.state == p.state && r.0.objects == p.objects && r.0.plugins == p.plugins
  {
    var store := Store(id, map k | k in setupStore :: Bind(setupStore[k], id));
    (p.(stores := p.stores[id := store]), store)
  }

  /** The author-written function a call of `f` ends in: wrappers only forward. */
  function Target(f: Func): string {
    match f
    case User(name) => name
    case Arrow(name) => name
    case Wrapped(action, _) => Target(action)
  }

  /** The `this` the body of `Target(f)` sees when `f` is called with receiver `self`. */
  function SeenReceiver(f: Func, self: Receiver): Receiver {
    match f
    case User(_) => self
    case Arrow(_) => Unbound
    case Wrapped(action, owner) => SeenReceiver(action, StoreThis(owner))
  }

  /** Call `f` with receiver `self`; `run` gives what an author-written function returns.
      The result is the author-written calls made and the value returned. */
  function Invoke(f: Func, self: Receiver, args: seq<Value>, run: Call -> Value): (r: (seq<Call>, Value))
    ensures r.0 == [Call(Target(f), SeenReceiver(f, self), args)]
    ensures f.Wrapped? ==> r.1 == Undefined
    ensures !f.Wrapped? ==> r.1 == run(r.0[0])
  {
    match f
    case User(name) =>
      var c := Call(name, self, args);
      ([c], run(c))
    case Arrow(name) =>
      var c := Call(name, Unbound, args);
      ([c], run(c))
    case Wrapped(action, owner) =>
      var (calls, _) := Invoke(action, StoreThis(owner), args, run);
      (calls, Undefined)
  }

  /** `wrapAction`: the wrapper calls the original once with the caller's arguments,
      passes the store it was made for as the receiver, whatever receiver it was itself
      given, and drops the original's result. An ordinary original sees that store as
      `this`; an arrow function does not. */
  lemma {:induction false} WrapperBindsStore(action: Func, owner: StoreId, self: Receiver,
                                             args: seq<Value>, run: Call -> Value)
    ensures Invoke(Wrapped(action, owner), self, args, run)
            == (Invoke(action, StoreThis(owner), args, run).0, Undefined)
    ensures action.User? ==>
              Invoke(Wrapped(action, owner), self, args, run).0 == [Call(action.name, StoreThis(owner), args)]
    ensures action.Arrow? ==>
              Invoke(Wrapped(action, owner), self, args, run).0 == [Call(action.name, Unbound, args)]
  {
  }

  /** Every action of a freshly built setup store is the original action bound to the
      store now registered under `id`, with its result dropped. */
  lemma SetupStoreActionsAreBound(id: StoreId, setupStore: map<string, Value>, p: Pinia,
                                  k: string, self: Receiver, args: seq<Value>, run: Call -> Value)
    requires k in setupStore && IsFunction(setupStore[k])
    ensures var (p', s) := CreateSetupStore(id, setupStore, p);
            && id in p'.stores && p'.stores[id] == s
            && IsFunction(s.fields[k])
            && Invoke(s.fields[k].f, self, args, run)
               == (Invoke(setupStore[k].f, StoreThis(id), args, run).0, Undefined)
  {
  }

  /** The object the adapted setup function of an option store returns: the fields of
      the state object numbered `obj` as refs, then the actions, then the getters as
      computed values, each later group overriding the earlier on a shared key. */
  function OptionFields(id: StoreId, obj: nat, init: map<string, Value>, actions: map<string, Value>,
                        getters: map<string, Func>): map<string, Value>
  {
    var localState := map k | k in init :: Ref(StateField(obj, k));
    var computeds := map k | k in getters :: Computed(StoreGetter(getters[k], id));
    localState + actions + computeds
  }

  /** The adapted `setup()` of an option store: it writes `state()` (or `{}`) into the
      state tree, then builds the store's fields. It throws when there are no getters,
      but only after the state tree was written. */
  function OptionSetup(id: StoreId, o: Options, p: Pinia): (r: (Pinia, Result<map<string, Value>, Fault>))
    ensures r.0 == WriteState(p, PropertyKey(id), if o.state.Some? then o.state.value else map[])
    ensures r.1.Failure? <==> o.getters.None?
    ensures r.1.Failure? ==> r.1.error == UndefinedGetters
    ensures r.1.Success? ==>
              var init := if o.state.Some? then o.state.value else map[];
              var actions := if o.actions.Some? then o.actions.value else map[];
              && r.1.value.Keys == init.Keys + actions.Keys + o.getters.value.Keys
              && (forall k :: k in o.getters.value ==>
                    r.1.value[k] == Computed(StoreGetter(o.getters.value[k], id)))
              && (forall k :: k in actions && k !in o.getters.value ==> r.1.value[k] == actions[k])
              && (forall k :: k in init && k !in actions && k !in o.getters.value ==>
                    r.1.value[k] == Ref(StateField(|p.objects|, k)))
  {
    var init := if o.state.Some? then o.state.value else map[];
    var p' := WriteState(p, PropertyKey(id), init);
    if o.getters.None? then (p', Failure(UndefinedGetters))
    else
      var actions := if o.actions.Some? then o.actions.value else map[];
      (p', Success(OptionFields(id, |p.objects|, init, actions, o.getters.value)))
  }

  /** The options object `createOptionStore` destructures: a string or a function has
      none of the three properties; undefined cannot be destructured. */
  function OptionsOf(a: Arg): Option<Options> {
    match a
    case Absent => None
    case Config(o) => Some(o)
    case _ => Some(Options(None, None, None, None))
  }

  /** `createOptionStore(id, options, pinia)`. */
  function CreateOptionStore(id: StoreId, options: Arg, p: Pinia): (r: Access)
    ensures r.registry.Some?
    ensures r.store.Failure? ==> r.registry.value.stores == p.stores
    ensures options.Absent? ==> r == Access(Some(p), Failure(UndefinedOptions))
    ensures !options.Absent? ==>
              && r.registry.value.state == p.state[PropertyKey(id) := |p.objects|]
              && r.registry.value.objects == p.objects +
                   [if options.Config? && options.options.state.Some? then options.options.state.value else map[]]
    ensures r.store.Success? <==> options.Config? && options.options.getters.Some?
    ensures r.store.Success? ==>
              && r.store.value.id == id
              && r.registry.value.stores == p.stores[id := r.store.value]
    ensures r.store.Success? ==>
              var o := options.options;
              forall k :: k in (if o.state.Some? then o.state.value else map[]) &&
                          (o.actions.None? || k !in o.actions.value) && k !in o.getters.value ==>
                k in r.store.value.fields && r.store.value.fields[k] == Ref(StateField(|p.objects|, k))
    ensures r.registry.value.plugins == p.plugins
  {
    match OptionsOf(options)
    case None => Access(Some(p), Failure(UndefinedOptions))
    case Some(o) =>
      var (p', fields) := OptionSetup(id, o, p);
      match fields
      case Failure(e) => Access(Some(p'), Failure(e))
      case Success(setupStore) =>
        var (p'', store) := CreateSetupStore(id, setupStore, p');
        Access(Some(p''), Success(store))
  }

  /** With getters present, an option store is the setup store of the adapted setup's
      fields, built on the registry whose state tree that setup wrote. */
  lemma OptionStoreIsSetupStore(id: StoreId, o: Options, p: Pinia)
    requires o.getters.Some?
    ensures var init := if o.state.Some? then o.state.value else map[];
            var actions := if o.actions.Some? then o.actions.value else map[];
            var written := WriteState(p, PropertyKey(id), init);
            var built := CreateSetupStore(id, OptionFields(id, |p.objects|, init, actions, o.getters.value), written);
            CreateOptionStore(id, Config(o), p) == Access(Some(built.0), Success(built.1))
  {
  }

  /** The accessor `useStore` returned by `defineStore`, called with `current` as the
      registry injected into the current component (None when there is none). */
  function UseStore(d: Definition, current: Option<Pinia>): (r: Access)
    ensures current.None? <==> r == Access(None, Failure(NoActiveContext))
    ensures current.Some? ==> r.registry.Some? && r.registry.value.plugins == current.value.plugins
    ensures current.Some? && d.id in current.value.stores ==>
              r == Access(current, Success(current.value.stores[d.id]))
    ensures r.store.Success? ==>
              && r.registry.Some? && d.id in r.registry.value.stores
              && r.registry.value.stores[d.id] == r.store.value
    ensures current.Some? && d.id !in current.value.stores && r.store.Success? ==>
              r.registry.value.stores == current.value.stores[d.id := r.store.value] && r.store.value.id == d.id
    ensures current.Some? && r.store.Failure? ==>
              && d.id !in current.value.stores && d.style.OptionStyle?
              && r.registry.value.stores == current.value.stores
    ensures current.Some? && d.id !in current.value.stores && d.style.SetupStyle? ==>
              var built := CreateSetupStore(d.id, d.style.setup, current.value);
              r == Access(Some(built.0), Success(built.1))
    ensures current.Some? && d.id !in current.value.stores && d.style.OptionStyle? ==>
              r == CreateOptionStore(d.id, d.style.options, current.value)
    ensures current.Some? && WellFormed(current.value) && r.store.Success? ==> r.store.value.id == d.id
  {
    match current
    case None => Access(None, Failure(NoActiveContext))
    case Some(p) =>
      if d.id in p.stores then Access(current, Success(p.stores[d.id]))
      else
        match d.style
        case SetupStyle(setup) =>
          var (p', store) := CreateSetupStore(d.id, setup, p);
          Access(Some(p'), Success(p'.stores[d.id]))
        case OptionStyle(options) => CreateOptionStore(d.id, options, p)
  }

  /** The first accessor call for an id builds the store the way `defineStore`'s second
      argument chose: a setup function's result, wrapped, or the options object read as
      an option store. */
  lemma DefineThenUse(idOrOptions: Arg, setup: Arg, p: Pinia)
    requires DefineStore(idOrOptions, setup).Success?
    requires DefineStore(idOrOptions, setup).value.id !in p.stores
    ensures var d := DefineStore(idOrOptions, setup).value;
            var r := UseStore(d, Some(p));
            && (setup.Setup? ==>
                  && r.store.Success?
                  && r.store.value.fields.Keys == setup.result.Keys
                  && r == Access(Some(CreateSetupStore(d.id, setup.result, p).0),
                                 Success(CreateSetupStore(d.id, setup.result, p).1)))
            && (!setup.Setup? ==>
                  r == CreateOptionStore(d.id, if idOrOptions.Text? then setup else idOrOptions, p))
  {
    var d := DefineStore(idOrOptions, setup).value;
    if setup.Setup? {
      assert d.style == SetupStyle(setup.result);
    } else {
      assert d.style == OptionStyle(if idOrOptions.Text? then setup else idOrOptions);
    }
  }

  /** Building keeps every registered store under its own id. */
  lemma UseStoreKeepsWellFormed(d: Definition, p: Pinia)
    requires WellFormed(p)
    ensures UseStore(d, Some(p)).registry.Some? && WellFormed(UseStore(d, Some(p)).registry.value)
  {
  }

  /** Singleton: once an accessor call has returned a store, calling it again on the
      registry it left returns the identical store and changes nothing. */
  lemma UseStoreIsSingleton(d: Definition, p: Pinia)
    requires UseStore(d, Some(p)).store.Success?
    ensures var first := UseStore(d, Some(p));
            UseStore(d, first.registry) == first
  {
  }

  /** Two definitions sharing an id share one store per registry: the first one called
      builds it, and the other returns that store without building its own. */
  lemma FirstBuiltWins(d1: Definition, d2: Definition, p: Pinia)
    requires d1.id == d2.id
    requires UseStore(d1, Some(p)).store.Success?
    ensures var first := UseStore(d1, Some(p));
            UseStore(d2, first.registry) == first
  {
  }

  /** The value a computed field reads, with the author-written calls it makes.
      An option store's getter looks the store up in the registry at read time. */
  function ReadComputed(p: Pinia, d: Derivation, run: Call -> Value): (r: (seq<Call>, Value))
    ensures |r.0| == 1
  {
    match d
    case UserDerived(name) =>
      var c := Call(name, Unbound, []);
      ([c], run(c))
    case StoreGetter(getter, owner) =>
      Invoke(getter, if owner in p.stores then StoreThis(owner) else Unbound, [], run)
  }

  /** Each getter of a freshly built option store is evaluated with the store now
      registered under `id` as `this`. */
  lemma GettersSeeRegisteredStore(id: StoreId, o: Options, p: Pinia, k: string, run: Call -> Value)
    requires id !in p.stores
    requires o.getters.Some? && k in o.getters.value
    requires o.getters.value[k].User?
    ensures var r := CreateOptionStore(id, Config(o), p);
            && r.store.Success?
            && r.store.value.fields[k] == Computed(StoreGetter(o.getters.value[k], id))
            && r.registry.value.stores[id] == r.store.value
            && ReadComputed(r.registry.value, r.store.value.fields[k].derivation, run).0
               == [Call(o.getters.value[k].name, StoreThis(id), [])]
  {
    var (p', fields) := OptionSetup(id, o, p);
    OptionStoreIsSetupStore(id, o, p);
    assert fields.value[k] == Computed(StoreGetter(o.getters.value[k], id));
  }

  /** The accessor over a world of registries: `current` names the registry in scope. */
  function UseStoreIn(w: World, d: Definition, current: Option<nat>): (r: (World, Result<Store, Fault>))
    requires current.Some? ==> current.value < |w.registries|
    ensures |r.0.registries| == |w.registries|
    ensures forall o :: 0 <= o < |w.registries| && (current.None? || o != current.value) ==>
              r.0.registries[o] == w.registries[o]
    ensures current.None? <==> r.1 == Failure(NoActiveContext)
  {
    match current
    case None => (w, Failure(NoActiveContext))
    case Some(h) =>
      var a := UseStore(d, Some(w.registries[h]));
      (Update(w, h, a.registry.value), a.store)
  }

  /** Isolation: two registries each build their own store from one setup definition
      or option definition with getters, building in one leaves the other untouched,
      and an option store's state lands in each registry's own state tree. */
  lemma RegistriesBuildIndependently(w: World, d: Definition)
    requires d.style.SetupStyle? || (d.style.options.Config? && d.style.options.options.getters.Some?)
    ensures var (w1, h1) := CreatePinia(w);
            var (w2, h2) := CreatePinia(w1);
            var (w3, s1) := UseStoreIn(w2, d, Some(h1));
            var (w4, s2) := UseStoreIn(w3, d, Some(h2));
            && h1 != h2
            && w3.registries[h2] == Fresh()
            && s1.Success? && s2.Success?
            && d.id in w4.registries[h1].stores && d.id in w4.registries[h2].stores
            && w4.registries[h1].stores.Keys == {d.id} && w4.registries[h2].stores.Keys == {d.id}
            && (d.style.SetupStyle? ==> w4.registries[h1].state == map[] && w4.registries[h2].state == map[])
            && (d.style.OptionStyle? ==>
                  var init := if d.style.options.options.state.Some? then d.style.options.options.state.value
                              else map[];
                  && w4.registries[h1].state == map[PropertyKey(d.id) := 0]
                  && w4.registries[h2].state == map[PropertyKey(d.id) := 0]
                  && w4.registries[h1].objects == [init] && w4.registries[h2].objects == [init])
  {
    var (w1, h1) := CreatePinia(w);
    var (w2, h2) := CreatePinia(w1);
    assert w2.registries[h1] == Fresh();
    assert w2.registries[h2] == Fresh();
  }
}

=== FILE: subscriptions.dfy ===
/**
 * The subscription list: an ordered list of callbacks with append,
 * remove-first-by-identity, and a trigger that walks a snapshot.
 * Callbacks are opaque ids; what a callback does when called is given by a
 * `react` function that sees the live list and returns the list it leaves
 * behind, or a throw.
 */
module Subscriptions {
  import opened Wrappers
  import opened Values

  datatype Callback = Callback(id: nat)

  /** The remover closure `addSubscription` hands back: it captures the callback. */
  datatype Remover = Remover(callback: Callback)

  /** What one callback call did: returned or threw, leaving the live list as `subs`. */
  datatype Reaction =
    | Returned(subs: seq<Callback>)
    | Threw(subs: seq<Callback>, error: Value)

  /** One notification: the callback called and the arguments it received. */
  datatype Notice = Notice(callback: Callback, args: seq<Value>)

  /** The calls a trigger made, the live list it left, and the error that aborted it, if any. */
  datatype Outcome = Outcome(trace: seq<Notice>, subs: seq<Callback>, error: Option<Value>)

  /** The calls a trigger over `pending` makes when nothing throws. */
  function Notices(pending: seq<Callback>, args: seq<Value>): (ns: seq<Notice>)
    ensures |ns| == |pending|
    ensures forall i :: 0 <= i < |ns| ==> ns[i] == Notice(pending[i], args)
  {
    seq(|pending|, i requires 0 <= i < |pending| => Notice(pending[i], args))
  }

  /** `addSubscription`: push the callback and hand back its remover. */
  function AddSubscription(subs: seq<Callback>, cb: Callback): (r: (seq<Callback>, Remover))
    ensures |r.0| == |subs| + 1
    ensures r.0[..|subs|] == subs
    ensures r.0[|subs|] == cb
    ensures r.1.callback == cb
  {
    (subs + [cb], Remover(cb))
  }

  /** Reference meaning of `splice(indexOf(cb), 1)`: drop the first occurrence of `cb`. */
  function RemoveFirst(subs: seq<Callback>, cb: Callback): (r: seq<Callback>)
    ensures cb !in subs ==> r == subs
    ensures cb in subs ==> |r| == |subs| - 1
    ensures multiset(r) == multiset(subs) - multiset{cb}
  {
    if subs == [] then []
    else
      assert subs == [subs[0]] + subs[1..];
      if subs[0] == cb then subs[1..]
      else [subs[0]] + RemoveFirst(subs[1..], cb)
  }

  /** `indexOf`: the first position holding `cb`, or -1. */
  method IndexOf(subs: seq<Callback>, cb: Callback) returns (idx: int)
    ensures -1 <= idx < |subs|
    ensures idx == -1 <==> cb !in subs
    ensures idx >= 0 ==> subs[idx] == cb && cb !in subs[..idx]
  {
    var i := 0;
    while i < |subs|
      invariant 0 <= i <= |subs|
      invariant cb !in subs[..i]
    {
      if subs[i] == cb {
        return i;
      }
      assert subs[..i + 1] == subs[..i] + [subs[i]];
      i := i + 1;
    }
    assert subs[..i] == subs;
    return -1;
  }

  /** Calling a remover on the list as it is at call time. */
  method RunRemover(subs: seq<Callback>, rm: Remover) returns (r: seq<Callback>)
    ensures rm.callback !in subs ==> r == subs
    ensures rm.callback in subs ==> |r| == |subs| - 1
    ensures r == RemoveFirst(subs, rm.callback)
  {
    var idx := IndexOf(subs, rm.callback);
    if idx > -1 {
      r := subs[..idx] + subs[idx + 1..];
      RemoveFirstAt(subs, rm.callback, idx);
    } else {
      r := subs;
    }
  }

  /** Removing the first occurrence is splicing out the first index that holds it. */
  lemma {:induction false} RemoveFirstAt(subs: seq<Callback>, cb: Callback, i: nat)
    requires i < |subs| && subs[i] == cb && cb !in subs[..i]
    ensures RemoveFirst(subs, cb) == subs[..i] + subs[i + 1..]
  {
    if i == 0 {
      assert subs[..0] + subs[1..] == subs[1..];
    } else {
      var prefix := subs[..i];
      assert subs[0] == prefix[0];
      var tail := subs[1..];
      assert tail[..i - 1] == prefix[1..];
      assert multiset(prefix) == multiset{prefix[0]} + multiset(prefix[1..]) by {
        assert prefix == [prefix[0]] + prefix[1..];
      }
      assert cb !in tail[..i - 1];
      RemoveFirstAt(tail, cb, i - 1);
      assert tail[..i - 1] + tail[i..] == subs[1..i] + subs[i + 1..];
      assert subs == [subs[0]] + tail;
      assert [subs[0]] + subs[1..i] == prefix;
    }
  }

  /** Removing keeps everything else in its relative order: before the removed
      position nothing moves, after it everything shifts down by one. */
  lemma RemoveFirstKeepsOrder(subs: seq<Callback>, cb: Callback, i: nat)
    requires i < |subs| && subs[i] == cb && cb !in subs[..i]
    ensures forall j :: 0 <= j < i ==> RemoveFirst(subs, cb)[j] == subs[j]
    ensures forall j :: i < j < |subs| ==> RemoveFirst(subs, cb)[j - 1] == subs[j]
  {
    RemoveFirstAt(subs, cb, i);
  }

  /** The remover undoes its own add when the callback was not already subscribed,
      and a second call of the remover changes nothing. */
  lemma {:induction false} RemoveAfterAdd(subs: seq<Callback>, cb: Callback)
    requires cb !in subs
    ensures RemoveFirst(AddSubscription(subs, cb).0, cb) == subs
    ensures RemoveFirst(RemoveFirst(AddSubscription(subs, cb).0, cb), cb)
            == RemoveFirst(AddSubscription(subs, cb).0, cb)
  {
    var added := AddSubscription(subs, cb).0;
    assert added[..|subs|] == subs;
    RemoveFirstAt(added, cb, |subs|);
    assert added[..|subs|] + added[|subs| + 1..] == subs;
  }

  /** A callback subscribed twice needs its remover twice: each call takes out only the
      first occurrence left, so the second call is not a no-op. */
  lemma {:induction false} RemoveTwiceAfterDoubleAdd(subs: seq<Callback>, cb: Callback)
    requires cb !in subs
    ensures var twice := AddSubscription(AddSubscription(subs, cb).0, cb).0;
            && RemoveFirst(twice, cb) == subs + [cb]
            && RemoveFirst(RemoveFirst(twice, cb), cb) == subs
  {
    var once := AddSubscription(subs, cb).0;
    var twice := AddSubscription(once, cb).0;
    assert twice[..|subs|] == subs;
    RemoveFirstAt(twice, cb, |subs|);
    assert twice[..|subs|] + twice[|subs| + 1..] == subs + [cb];
    RemoveFirstAt(subs + [cb], cb, |subs|);
    assert (subs + [cb])[..|subs|] == subs;
    assert (subs + [cb])[..|subs|] + (subs + [cb])[|subs| + 1..] == subs;
  }

  /**
   * Notify each of `pending` in order, threading the live list through the
   * callbacks' reactions; the first throw aborts the rest and propagates.
   */
  function Notify(pending: seq<Callback>, live: seq<Callback>, args: seq<Value>,
                  react: (Callback, seq<Callback>) -> Reaction): (r: Outcome)
    ensures |r.trace| <= |pending|
    ensures forall i :: 0 <= i < |r.trace| ==> r.trace[i] == Notice(pending[i], args)
    ensures r.error.None? ==> |r.trace| == |pending|
    ensures r.error.Some? ==> |r.trace| >= 1
    ensures (forall i, l :: 0 <= i < |pending| ==> react(pending[i], l).Returned?) ==> r.error.None?
    ensures (forall c, l :: react(c, l) == Returned(l)) ==> r.subs == live
    decreases |pending|
  {
    if pending == [] then Outcome([], live, None)
    else
      var n := Notice(pending[0], args);
      match react(pending[0], live)
      case Threw(after, e) => Outcome([n], after, Some(e))
      case Returned(after) =>
        var rest := Notify(pending[1..], after, args, react);
        Outcome([n] + rest.trace, rest.subs, rest.error)
  }

  /** `triggerSubscription`: notify a snapshot of the list taken before any callback runs. */
  function TriggerSubscription(subs: seq<Callback>, args: seq<Value>,
                               react: (Callback, seq<Callback>) -> Reaction): (r: Outcome)
    ensures r.error.None? ==> r.trace == Notices(subs, args)
    ensures r.error.Some? ==> 1 <= |r.trace| <= |subs| && r.trace == Notices(subs[..|r.trace|], args)
    ensures (forall c, l :: react(c, l) == Returned(l)) ==> r.subs == subs && r.error.None?
  {
    Notify(subs, subs, args, react)
  }

  /** The snapshot makes the calls independent of how callbacks edit the list:
      two triggers of the same list whose callbacks do not throw make the same calls. */
  lemma SnapshotFixesCalls(subs: seq<Callback>, args: seq<Value>,
                           react1: (Callback, seq<Callback>) -> Reaction,
                           react2: (Callback, seq<Callback>) -> Reaction)
    requires forall c, l :: react1(c, l).Returned? && react2(c, l).Returned?
    ensures TriggerSubscription(subs, args, react1).trace == TriggerSubscription(subs, args, react2).trace
    ensures TriggerSubscription(subs, args, react1).trace == Notices(subs, args)
  {
    var r1 := TriggerSubscription(subs, args, react1);
    var r2 := TriggerSubscription(subs, args, react2);
    assert r1.error.None? && r2.error.None?;
  }

  /** A throw aborts the trigger at the thrower: if the callback at position `k`
      throws and none before it does, exactly the first `k + 1` callbacks are called. */
  lemma {:induction false} ThrowAborts(pending: seq<Callback>, live: seq<Callback>, args: seq<Value>,
                                       react: (Callback, seq<Callback>) -> Reaction, k: nat)
    requires k < |pending|
    requires forall i, l :: 0 <= i < k ==> react(pending[i], l).Returned?
    requires forall l :: react(pending[k], l).Threw?
    ensures Notify(pending, live, args, react).error.Some?
    ensures Notify(pending, live, args, react).trace == Notices(pending[..k + 1], args)
  {
    if k > 0 {
      var after := react(pending[0], live).subs;
      assert forall i, l :: 0 <= i < k - 1 ==> react(pending[1..][i], l).Returned? by {
        forall i, l | 0 <= i < k - 1 ensures react(pending[1..][i], l).Returned? {
          assert pending[1..][i] == pending[i + 1];
        }
      }
      assert pending[1..][k - 1] == pending[k];
      ThrowAborts(pending[1..], after, args, react, k - 1);
    }
  }

  /** A callback added by the last `addSubscription` is called last, after all earlier ones. */
  lemma AddedIsNotifiedLast(subs: seq<Callback>, cb: Callback, args: seq<Value>,
                            react: (Callback, seq<Callback>) -> Reaction)
    requires forall c, l :: react(c, l).Returned?
    ensures TriggerSubscription(AddSubscription(subs, cb).0, args, react).trace
            == Notices(subs, args) + [Notice(cb, args)]
  {
    var added := AddSubscription(subs, cb).0;
    var r := TriggerSubscription(added, args, react);
    assert r.error.None?;
    assert r.trace == Notices(added, args);
  }
}

=== FILE: values.dfy ===
/**
 * The values a store deals in. The host reactivity library is not modelled:
 * its primitives (`ref`, `computed`, `reactive`, `toRef`, `toRefs`) appear
 * only as tags on `Value`, and a function is an opaque name plus, for the
 * wrappers the store engine makes, the store it is bound to.
 */
module Values {
  import opened Wrappers

  /** A store id. `None` is `undefined`: the id of an options object without an `id` field. */
  type StoreId = Option<string>

  /** The property key under which an id is stored in the registry's state tree
      (an object, so the key is the id converted to a string). */
  function PropertyKey(id: StoreId): (key: string)
    ensures id.Some? ==> key == id.value
  {
    match id
    case Some(name) => name
    case None => "undefined"
  }

  /** A receiver: nothing (`undefined`), or the store registered under `owner`. */
  datatype Receiver = Unbound | StoreThis(owner: StoreId)

  /** A JavaScript function. */
  datatype Func =
    | User(name: string)                     // an ordinary function written by the store's author
    | Arrow(name: string)                    // an arrow function written by the store's author
    | Wrapped(action: Func, owner: StoreId)  // the wrapper that passes owner's store to `action`

  /** What a ref reads from. */
  datatype RefSource =
    | Cell(content: Value)                      // `ref(v)` made by setup code
    | StateField(obj: nat, field: string)    // `toRefs(o)[field]` for the state object `o` numbered `obj`
    | StoreField(owner: StoreId, field: string) // `toRef(store, field)` on a non-ref field

  /** What a computed value is derived from. */
  datatype Derivation =
    | UserDerived(name: string)                 // `computed(...)` in setup code
    | StoreGetter(getter: Func, owner: StoreId) // an option store's getter, called on owner's store

  /** A field value, tagged as the host library would classify it. */
  datatype Value =
    | Undefined
    | Num(n: int)
    | Str(s: string)
    | Obj(handle: nat)       // a plain, non-reactive object
    | Reactive(handle: nat)  // a `reactive(...)` object
    | Ref(source: RefSource)
    | Computed(derivation: Derivation)
    | Fn(f: Func)

  /** `isRef`: refs, including computed values. */
  predicate IsRef(v: Value) { v.Ref? || v.Computed? }

  /** `isReactive`. */
  predicate IsReactive(v: Value) { v.Reactive? }

  /** `typeof v === 'function'`. */
  predicate IsFunction(v: Value) { v.Fn? }

  /** A store object. `id` is the model's stand-in for object identity: together with
      the registry that holds the store it names the one object. */
  datatype Store = Store(id: StoreId, fields: map<string, Value>)

  /** One call of an author-written function: its name, the `this` its body sees and its
      arguments. An ordinary function sees the receiver passed to it; an arrow function
      ignores that receiver and sees the `this` of the code it was written in, which for
      a setup function or a module is `undefined`. */
  datatype Call = Call(callee: string, self: Receiver, args: seq<Value>)

  /** The conditions under which the engine throws (all `TypeError`s in the source). */
  datatype Fault =
    | UndefinedDefinition  // `defineStore(undefined, ...)`: reading `.id` of undefined
    | NoActiveContext      // no registry in scope: reading `._s` of a falsy value
    | UndefinedOptions     // option store with no options: destructuring undefined
    | UndefinedGetters     // option store without `getters`: `Object.keys(undefined)`
}

=== FILE: wrappers.dfy ===
/** Failure-aware wrappers shared by the rest of the model. */
module Wrappers {

  /** An optional value; `None` also stands for JavaScript's `undefined`. */
  datatype Option<+T> = None | Some(value: T)

  /** The outcome of an operation that can throw. */
  datatype Result<+T, +E> = Success(value: T) | Failure(error: E)
}
